=== FILE: README.md ===
# Conversation statistics charts, comment carousel and beta-signup validation

A Dafny model of the three pieces of pure logic inside the Polis web client's
conversation-statistics view, vote-visualisation comment carousel and homepage.

- **Series preparation** (`StatsSeries`, `stats_series.dfy`). Each array of
  arrival timestamps fetched for a statistic becomes a sequence of points
  `{count, created}`. Counts run from 1 in input order. The sequence goes through
  the sampler and gets one synthetic trailing point that carries the last count
  forward to "now". `times` holds one such series per fetched key.
- **Chart bounds** (`Extremes`, `StatsChart`; `extremes.dfy`, `stats_chart.dfy`).
  A chart picks its requested series out of `times` and silently drops names that
  are absent. Its time domain runs from the earliest first `created` to the latest
  last `created` across the picked series. Its count range runs from the lowest
  first `count` to the highest last `count`. Empty series take part with the keys
  +Infinity and -Infinity, so they are never chosen while a non-empty series exists. Each picked series becomes a
  line with its colour from the fixed colour table. After a refresh the
  participants chart is drawn first, then the votes chart, then the comments chart.
- **Carousel paging** (`Carousel`, `carousel.dfy`). The state is a page index and a
  fixed page size of 10. `movePage(n)` clamps the new page to 0 from below. From
  above it clamps to `len/perPage - 1`, where `len/perPage` is exact, unrounded
  division. The visible comments are `slice(page*perPage, page*perPage + perPage)`
  with JavaScript's slice semantics. The page is a Dafny `real`. Pages can
  therefore be fractional, and negative when the list is shorter than a page.
  One step past the last full page is allowed: from page 9 of a 100-comment
  list, +1 gives page 10, whose window is empty (`StepPastLastFullPage`).
- **Signup validation** (`Homepage`, `homepage.dfy`). `validateInput` reports one
  error, against the field name "description", exactly when `attrs.email` is the
  empty string.

The sampler `Utils.evenlySample` is a parameter of type `Sampler`. The model calls
it with the source's target of 300. Its body is not part of this model, and lemmas
that need its evident behaviour (it keeps only input points; it keeps the last one)
take that behaviour as a hypothesis. `Utils.argMin` and `Utils.argMax` are not part
of this model either. They are written by their evident role as a left-to-right scan
that keeps the first element with a strictly better key. The clock `Date.now()` is a
parameter `clock: string -> int`, because the source reads it once per key while
building `times`.

Some behaviour of the code that may look unintended is modelled as written:

- For an empty timestamp array the code still appends the trailing point. It copies
  `undefined`, so it has a `created` time and no `count`. `Point.count` is therefore
  an `Option`, and no series in `times` is ever empty.
- A page can go past `ceil(len/perPage) - 1`, up to `len/perPage`. It can also be
  negative, for example -1 for an empty list.
- A series name missing from the colour table is drawn with an undefined colour
  (`LineColor` gives `None`). The render is not refused.
- A chart whose picked series are all empty, or which picked none, throws when it
  reads the domain endpoints. The charts after it in the same refresh are not drawn
  (`RenderInOrder`, `MissingParticipantSeriesStopsRefresh`).

## Model

| member | source | states |
|---|---|---|
| StatsSeries.ToPoints | js/views/conversationStatsView.js:199-207 | the i-th timestamp (0-based) becomes a point with count i+1 and the same `created`; counts run 1..n in input order and no timestamp is changed or moved |
| StatsSeries.ExtendToNow | js/views/conversationStatsView.js:209-211 | one point is appended and every earlier point is kept; the appended point has `created = now` and the last point's count, or no count when there was no last point |
| StatsSeries.BuildSeries | js/views/conversationStatsView.js:200-211 | a series is the sampler's output on the numbered points plus one trailing point at the clock reading, so its length is the sampled length + 1 |
| StatsSeries.BuildTimes | js/views/conversationStatsView.js:196-213 | every fetched key gets exactly one series and no other key appears; every series is non-empty and ends at that key's clock reading |
| StatsSeries.EmptyTimestampsGiveOnlyNow | js/views/conversationStatsView.js:208-211 | an empty timestamp array yields exactly the one point with `created = now` and no count, when the sampler maps no points to no points |
| StatsSeries.SampledPointsKeepTheirPosition | js/views/conversationStatsView.js:202-208 | when the sampler keeps only input points, every point before the trailing one carries a count k in 1..n and the k-th original timestamp |
| StatsSeries.TrailingPointHoldsTotal | js/views/conversationStatsView.js:208-211 | when the sampler keeps the last point, the trailing point of a non-empty series has count n (the total) and `created = now` |
| Extremes.ArgMin | js/views/conversationStatsView.js:56-61 | the chosen index has a key no greater than any other, and a key strictly less than every earlier one |
| Extremes.ArgMax | js/views/conversationStatsView.js:64-69 | the chosen index has a key no less than any other, and a key strictly greater than every earlier one |
| StatsChart.Pick | js/views/conversationStatsView.js:51-54 | exactly the requested names present in `times` are picked, each once, with its series unchanged; absent names are dropped |
| StatsChart.TimeDomain | js/views/conversationStatsView.js:56-74 | no domain exactly when every dataset is empty; otherwise the lower end is the least first `created` over non-empty datasets and the upper end the greatest last `created`, each attained |
| StatsChart.CountRange | js/views/conversationStatsView.js:76-95 | no range exactly when no dataset has a counted first point or none has a counted last point; otherwise the ends are the least first count and greatest last count, each attained |
| StatsChart.RenderChart | js/views/conversationStatsView.js:51-162 | the time-domain failure happens exactly when every selected series is empty; the chart gets both a time domain and a count range exactly when some selected series is non-empty, some starts with a counted point and some ends with one, and otherwise it is `NoCountBounds`; a chart with both bounds has exactly one line per selected name (every selected name has a line, no name has two), carrying that series and its colour |
| StatsChart.PickPicksSelection | js/views/conversationStatsView.js:51-54 | every picked entry is a requested name present in `times` with its own series, and every such name has an entry |
| StatsChart.RenderedTimeDomainIsExtremal | js/views/conversationStatsView.js:56-74 | the domain is [earliest first time, latest last time] over the selected non-empty series, both ends attained; empty series never decide it |
| StatsChart.RenderedCountRangeIsExtremal | js/views/conversationStatsView.js:76-95 | the range is [lowest first count, highest last count] over the selected series whose endpoints carry a count, both ends attained |
| StatsChart.ColorTable | js/views/conversationStatsView.js:10-23 | colours and labels exist for exactly the five known names; `voteTimes`, `commentTimes` and `viewTimes` share "steelblue", and the other two are "orange" and "red" |
| StatsChart.LineColor | js/views/conversationStatsView.js:151 | a series name has a colour exactly when it is one of the five known names, and that colour is steelblue, orange or red |
| StatsChart.UntilFirst | js/views/conversationStatsView.js:219-222 | the calls run in order; the sequence stops right after the first call that throws, and only then is it cut short |
| StatsChart.RenderInOrder | js/views/conversationStatsView.js:219-222 | the charts are rendered in request order; every chart before the last one drawn got past its time domain, and the run is cut short only by a time-domain throw |
| StatsChart.RefreshCharts | js/views/conversationStatsView.js:193-222 | a refresh always renders the participants chart first; the votes chart is rendered only after the participants chart got its time domain, the comments chart only after the votes chart did; fewer than three results means the last one threw |
| StatsChart.FetchedChartGetsTimeBounds | js/views/conversationStatsView.js:196-222 | a chart that requests at least one fetched key never fails on its time domain, because no fetched series is empty |
| StatsChart.FetchedChartsAllGetTimeBounds | js/views/conversationStatsView.js:196-222 | when every chart of a refresh requests at least one fetched key, every chart is reached and none fails on its time domain |
| StatsChart.NoVotesYet | js/views/conversationStatsView.js:196-222 | when `firstVoteTimes` is fetched and `voteTimes` is an empty array (a conversation with no votes yet), the refresh reaches all three charts and the votes chart is `NoCountBounds`, provided the sampler maps no points to no points |
| StatsChart.MissingParticipantSeriesStopsRefresh | js/views/conversationStatsView.js:219-222 | when none of the participant series was fetched, the first chart throws and the votes and comments charts are never drawn |
| Carousel.MovePage | vis2/components/tidCarousel.js:41-52 | only the page changes; a target of 0 or less gives 0, a target above len/perPage gives len/perPage - 1, anything else is taken exactly; the result never exceeds len/perPage and is non-negative once len >= perPage |
| Carousel.Delta | vis2/components/tidCarousel.js:64-113 | the four buttons move by exactly -10, -1, +1 and +10; the two left-hand buttons, and only they, move back |
| Carousel.PageLimit | vis2/components/tidCarousel.js:46-47 | the limit times perPage is exactly `length`, so it is the unrounded quotient; it is non-negative, at least 1 exactly when the list fills a page |
| Carousel.Run | vis2/components/tidCarousel.js:35-52 | from the constructor's page 0 and page size 10, any sequence of button presses keeps the page size, never passes len/perPage, leaves a negative page only on len/perPage - 1, and leaves a page that is a whole number or len/perPage - 1 plus a whole number |
| Carousel.ReachablePagesAreWhole | vis2/components/tidCarousel.js:35-52 | when the length is a multiple of 10, every page the buttons reach is a whole number, and non-negative unless the list is empty |
| Carousel.ReachableWindows | vis2/components/tidCarousel.js:35-86 | on a non-empty list whose length is a multiple of 10, every reachable window is the run of at most 10 comments starting at index page * 10, in list order |
| Carousel.Truncate | vis2/components/tidCarousel.js:83-86 | a fractional slice bound is truncated toward zero: the whole number lies between zero and the bound, less than one away from it |
| Carousel.SliceIndex | vis2/components/tidCarousel.js:83-86 | a slice bound is truncated toward zero, counted from the end when negative and clamped to [0, len] |
| Carousel.Visible | vis2/components/tidCarousel.js:82-86 | an absent list shows nothing; a present one shows its items from the resolved start bound `page*perPage` up to the resolved end bound `page*perPage + perPage`, in list order, never more than a positive page size, for whole and fractional pages alike |
| Carousel.Slice | vis2/components/tidCarousel.js:83-86 | the slice is the run of list items between the two resolved bounds, in list order, and empty when the end does not pass the start |
| Carousel.WholePageWindow | vis2/components/tidCarousel.js:83-86 | on a whole page k >= 0 the window is the min(perPage, len - k*perPage) comments starting at index k*perPage, in list order, and empty once that index reaches len |
| Carousel.FractionalPageWindow | vis2/components/tidCarousel.js:41-86 | three presses of +1 on 25 comments overshoot the limit 2.5 and land on page 1.5, which shows comments 15 to 24 |
| Carousel.StepPastLastFullPage | vis2/components/tidCarousel.js:46-49 | +1 from page 9 of 100 comments gives page 10 = 100/10, and that page's window is empty |
| Carousel.MoveByZeroKeepsPage | vis2/components/tidCarousel.js:44-49 | a move by 0 from page 0 or from any page in (0, len/perPage] leaves the state unchanged |
| Carousel.ClampExamples | vis2/components/tidCarousel.js:44-49 | -5 from page 0 gives 0; +5 from page 9 of 100 gives 9; -1 from page 3 gives 2; +1 over an empty list gives -1, whose window is empty |
| Homepage.ValidateInput | js/views/homepage.js:38-44 | at most one error; exactly one when `email` is the empty string, and then it is the fixed error named "description" |
| Homepage.OnlyEmailMatters | js/views/homepage.js:38-44 | two forms that agree on `email` (both missing, or equal values) validate identically, whatever their other fields |
| Homepage.OnlyEmptyStringFails | js/views/homepage.js:40-43 | a missing, undefined, null, non-string or non-empty email yields no errors, because the comparison is strict |

## Left out

- D3 rendering (scales, axes, the clip path, the line generator, the zoom behaviour
  and the `draw` redraw loop, lines 97-188 of conversationStatsView.js): these are
  library calls and floating-point pixel arithmetic. The model stops at the
  domain, the range and the per-line data handed to them.
- The template context (`context`, lines 30-37), which copies five colours into the
  template. The `names` labels table (lines 17-23) is never read by the view; it
  is modelled as `DisplayName` only, for completeness.
- Network and timers: the `$.get` fetch with its error branch, `setInterval` with
  `Utils.isHidden`, and `Date.now`, which becomes the `clock` parameter.
- The bodies of `Utils.evenlySample`, `Utils.argMin` and `Utils.argMax`, which are
  not part of this model. The sampler is a parameter. The two selectors are written
  as first-extremal scans; the bounds they yield do not depend on how ties are broken.
- StatsChart.CountRange: JavaScript compares an `undefined` count key in a way that
  depends on argMin/argMax, which are not part of this model. The model treats a
  non-empty series whose endpoint has no count like an empty one, and reports
  `NoCountBounds` when no counted endpoint remains. It assumes the source then goes
  on with an undefined y bound and does not throw, so `NoCountBounds` does not stop
  the refresh. A scan seeded with +-Infinity could instead return nothing, making
  line 93 throw and skipping the later charts; the model does not cover that case.
- StatsChart.RenderChart: `NoCountBounds` stands for "drawn with an undefined y
  bound", under the assumption above; the model returns no chart for it, and
  `RenderInOrder` and `RefreshCharts` go on past it. The case is common: in a
  conversation with no votes yet, `voteTimes` is an empty array, its series is the
  single count-less point at the clock reading, and the votes chart is
  `NoCountBounds` while the comments chart after it is still rendered (`NoVotesYet`).
- StatsChart.FetchedChartsAllGetTimeBounds: "every chart is drawn" rests on the
  assumption above about `NoCountBounds`; what is proved without it is that no chart
  fails on its time domain.
- StatsChart.Pick: the picked entries come in the order of the first request of each
  name, but the contract does not state this order. Only drawing order and
  tie-breaking depend on it.
- Non-numeric timestamps: the source does not check them. Timestamps are integers of
  milliseconds here, and JavaScript's `NaN` has no counterpart.
- Floating point: `len/perPage`, `page*perPage` and the page index are exact
  rationals here, not IEEE doubles.
- React rendering of the carousel: the buttons' SVG, inline styles, the highlighting
  of the selected comment and the click handlers on comments.
- A `commentsToShow` that is null or undefined. Rendering is guarded and shows nothing
  (`Visible` with `None`). `movePage` sets page 0 without reading the length when
  `page + n <= 0` (lines 44-45), but throws reading the length in the branch at
  line 46. `MovePage` always takes the length of a present list, so that throw is
  not modelled.
- Carousel.Run: the list length is held fixed across the presses. In the component
  the list can change between presses while the page is kept.
- The homepage's submit handler (the POST) and the `invalid` handler's DOM update.

=== FILE: carousel.dfy ===
/** The paging state of the TidCarousel component: a page index over an
    ordered list of comments, moved by a clamped step and shown through a
    slice window. The page is an exact rational: the upper clamp divides the
    list length by the page size without rounding, so pages can be fractional,
    and negative when the list is shorter than one page. */
module Carousel {
  import opened Common

  /** Items per page; the component never changes it. */
  const PerPage: int := 10

  datatype State = State(page: real, perPage: int)

  /** The state set in the constructor. */
  const Initial: State := State(0.0, PerPage)

  /** `commentsToShow.length / perPage`, without rounding. */
  function PageLimit(len: nat, perPage: int): (l: real)
    requires perPage > 0
    ensures l * perPage as real == len as real
    ensures l >= 0.0
    ensures len >= perPage ==> l >= 1.0
    ensures len < perPage ==> l < 1.0
  {
    var l := len as real / perPage as real;
    assert l * perPage as real == len as real;
    assert l < 1.0 ==> l * perPage as real < 1.0 * perPage as real;
    assert l >= 1.0 ==> l * perPage as real >= 1.0 * perPage as real;
    l
  }

  /** movePage(n) applied to a list of `len` comments: clamp to 0 from below,
      to one less than the page limit from above, else step exactly by `n`. */
  function MovePage(s: State, n: int, len: nat): (r: State)
    requires s.perPage > 0
    ensures r.perPage == s.perPage
    ensures r.page <= PageLimit(len, s.perPage)
    ensures r.page >= 0.0 || r.page == PageLimit(len, s.perPage) - 1.0
    ensures len >= s.perPage ==> r.page >= 0.0
    ensures s.page + n as real <= 0.0 ==> r.page == 0.0
    ensures s.page + n as real > PageLimit(len, s.perPage) ==> r.page == PageLimit(len, s.perPage) - 1.0
    ensures 0.0 < s.page + n as real <= PageLimit(len, s.perPage) ==> r.page == s.page + n as real
  {
    var target := s.page + n as real;
    if target <= 0.0 then s.(page := 0.0)
    else if target > PageLimit(len, s.perPage) then s.(page := PageLimit(len, s.perPage) - 1.0)
    else s.(page := target)
  }

  /** The four paging buttons, left to right. */
  datatype Button = BackTen | BackOne | ForwardOne | ForwardTen

  /** The step each button passes to movePage. */
  function Delta(b: Button): (n: int)
    ensures b.BackTen? ==> n == -10
    ensures b.BackOne? ==> n == -1
    ensures b.ForwardOne? ==> n == 1
    ensures b.ForwardTen? ==> n == 10
    ensures b.BackTen? || b.BackOne? <==> n < 0
  {
    match b
    case BackTen => -10
    case BackOne => -1
    case ForwardOne => 1
    case ForwardTen => 10
  }

  /** `x` is a whole number. */
  predicate Whole(x: real)
  {
    x == x.Floor as real
  }

  /** Adding a whole number keeps a number whole, or not whole. */
  lemma WholeShift(x: real, n: int)
    ensures Whole(x) <==> Whole(x + n as real)
  {
    assert (x + n as real).Floor == x.Floor + n;
  }

  /** The state after pressing `presses` in order, starting from the
      constructor's state, over a list of `len` comments. Only the page moves,
      it never passes the page limit, it is negative only when it sits on the
      limit minus one, and it is always a whole number or the limit minus one
      plus a whole number: the only fractional page the clamp creates is
      limit - 1, and whole steps keep that offset. */
  function Run(presses: seq<Button>, len: nat): (s: State)
    ensures s.perPage == PerPage
    ensures s.page <= PageLimit(len, PerPage)
    ensures s.page >= 0.0 || s.page == PageLimit(len, PerPage) - 1.0
    ensures Whole(s.page) || Whole(s.page - (PageLimit(len, PerPage) - 1.0))
  {
    if |presses| == 0 then Initial
    else
      var before := Run(presses[..|presses| - 1], len);
      var n := Delta(presses[|presses| - 1]);
      var lim := PageLimit(len, PerPage) - 1.0;
      WholeShift(before.page, n);
      WholeShift(before.page - lim, n);
      assert Whole(0.0) && Whole(lim - lim);
      MovePage(before, n, len)
  }

  /** When the list fills its pages exactly, every page the buttons can reach
      is whole, and it is non-negative unless the list is empty. */
  lemma ReachablePagesAreWhole(presses: seq<Button>, len: nat)
    requires len % PerPage == 0
    ensures Whole(Run(presses, len).page)
    ensures len > 0 ==> Run(presses, len).page >= 0.0
  {
    var s := Run(presses, len);
    var l := PageLimit(len, PerPage);
    assert l == (len / PerPage) as real;
    WholeShift(s.page - (l - 1.0), len / PerPage - 1);
  }

  /** So on such a list every window the buttons can reach is the run of
      comments starting at page * perPage that WholePageWindow describes. */
  lemma ReachableWindows<T>(presses: seq<Button>, xs: seq<T>)
    requires |xs| % PerPage == 0 && |xs| > 0
    ensures var s := Run(presses, |xs|); WindowFromWholePage(s, xs)
  {
    ReachablePagesAreWhole(presses, |xs|);
    WholeStateWindow(Run(presses, |xs|), xs);
  }

  /** The window of `s` is the run of at most PerPage comments starting at
      index page * PerPage, in list order. */
  ghost predicate WindowFromWholePage<T>(s: State, xs: seq<T>)
  {
    var v := Visible(s, Some(xs)); var k := s.page.Floor;
    && k >= 0
    && |v| == Min(PerPage, Max(0, |xs| - k * PerPage))
    && forall i :: 0 <= i < |v| ==> v[i] == xs[k * PerPage + i]
  }

  /** WholePageWindow for a state whose page is whole and non-negative. */
  lemma WholeStateWindow<T>(s: State, xs: seq<T>)
    requires s.perPage == PerPage && Whole(s.page) && s.page >= 0.0
    ensures WindowFromWholePage(s, xs)
  {
    WholePageWindow(s, xs, s.page.Floor);
  }

  /** ToIntegerOrInfinity for a finite number: truncation toward zero. */
  function Truncate(x: real): (t: int)
    ensures x >= 0.0 ==> 0 <= t && t as real <= x < t as real + 1.0
    ensures x < 0.0 ==> t <= 0 && t as real - 1.0 < x <= t as real
  {
    if x >= 0.0 then x.Floor else -((-x).Floor)
  }

  /** Where one bound of Array.prototype.slice lands: truncated, counted from
      the end when negative, clamped to the list. */
  function SliceIndex(x: real, len: nat): (k: nat)
    ensures k <= len
    ensures Truncate(x) >= 0 ==> k == Min(Truncate(x), len)
    ensures Truncate(x) < 0 ==> k == Max(len + Truncate(x), 0)
  {
    var t := Truncate(x);
    if t < 0 then (if len + t < 0 then 0 else len + t)
    else if t > len then len else t
  }

  /** `xs.slice(start, end)`. */
  function Slice<T>(xs: seq<T>, start: real, end: real): (r: seq<T>)
    ensures |r| == Max(0, SliceIndex(end, |xs|) - SliceIndex(start, |xs|))
    ensures forall i :: 0 <= i < |r| ==> r[i] == xs[SliceIndex(start, |xs|) + i]
  {
    var from := SliceIndex(start, |xs|);
    var to := SliceIndex(end, |xs|);
    if from < to then xs[from..to] else []
  }

  /** The comments rendered for the current page; nothing when the list is
      absent. Whatever the page, whole or fractional, positive or negative, a
      positive page size bounds what is shown, and what is shown is a run of
      the list in list order. */
  function Visible<T>(s: State, items: Option<seq<T>>): (r: seq<T>)
    ensures items.None? ==> r == []
    ensures s.perPage > 0 ==> |r| <= s.perPage
    ensures items.Some? ==>
      |r| == Max(0, SliceIndex(WindowStart(s) + s.perPage as real, |items.value|)
                    - SliceIndex(WindowStart(s), |items.value|))
    ensures items.Some? ==> SliceIndex(WindowStart(s), |items.value|) + |r| <= |items.value|
    ensures items.Some? ==>
      forall i :: 0 <= i < |r| ==> r[i] == items.value[SliceIndex(WindowStart(s), |items.value|) + i]
  {
    match items
    case None => []
    case Some(xs) =>
      TruncateShift(WindowStart(s), Max(s.perPage, 0));
      Slice(xs, WindowStart(s), WindowStart(s) + s.perPage as real)
  }

  /** `page * perPage`, the first slice bound. */
  function WindowStart(s: State): real
  {
    s.page * s.perPage as real
  }

  /** On a whole page the first slice bound is the whole number k * perPage. */
  lemma WholeWindowStart(s: State, k: nat)
    requires s.page == k as real
    ensures WindowStart(s) == (k * s.perPage) as real
  {
  }

  /** Truncation moves by at most `p` when its argument moves up by `p`. */
  lemma TruncateShift(a: real, p: nat)
    ensures Truncate(a) <= Truncate(a + p as real) <= Truncate(a) + p
  {
    var b := a + p as real;
    if a >= 0.0 {
      assert b.Floor == a.Floor + p;
    } else if b < 0.0 {
      assert (-a).Floor == (-b).Floor + p;
    }
  }

  /** A slice from a whole, non-negative bound m spanning p positions. */
  lemma WholeSlice<T>(xs: seq<T>, start: real, m: nat, p: nat)
    requires start == m as real
    ensures var v := Slice(xs, start, start + p as real);
      && |v| == Min(p, Max(0, |xs| - m))
      && forall i :: 0 <= i < |v| ==> v[i] == xs[m + i]
  {
    assert Truncate(start) == m;
    assert start + p as real == (m + p) as real;
    assert Truncate(start + p as real) == m + p;
  }

  /** On a whole page k >= 0 the window is the run of at most perPage
      comments starting at index k * perPage, in list order; it is empty once
      that index reaches the end of the list. */
  lemma WholePageWindow<T>(s: State, xs: seq<T>, k: nat)
    requires s.perPage > 0 && s.page == k as real
    ensures var v := Visible(s, Some(xs));
      && |v| == Min(s.perPage, Max(0, |xs| - k * s.perPage))
      && forall i :: 0 <= i < |v| ==> v[i] == xs[k * s.perPage + i]
  {
    WholeWindowStart(s, k);
    WholeSlice(xs, WindowStart(s), k * s.perPage, s.perPage);
  }

  /** Moving forward one page from the last full page of a 100-comment list
      lands on page 10 = 100 / 10, whose window is empty: the upper clamp only
      fires past the exact page limit. */
  lemma StepPastLastFullPage<T>(xs: seq<T>)
    requires |xs| == 100
    ensures MovePage(State(9.0, PerPage), 1, |xs|) == State(10.0, PerPage)
    ensures Visible(State(10.0, PerPage), Some(xs)) == []
  {
    WholePageWindow(State(10.0, PerPage), xs, 10);
  }

  /** Three presses of +1 on a 25-comment list: the third step overshoots
      the limit 2.5 and is clamped to the fractional page 1.5, whose window
      is comments 15 to 24. */
  lemma FractionalPageWindow<T>(xs: seq<T>)
    requires |xs| == 25
    ensures Run([ForwardOne, ForwardOne, ForwardOne], |xs|) == State(1.5, PerPage)
    ensures Visible(State(1.5, PerPage), Some(xs)) == xs[15..25]
  {
    assert [ForwardOne, ForwardOne, ForwardOne][..2] == [ForwardOne, ForwardOne];
    assert [ForwardOne, ForwardOne][..1] == [ForwardOne];
    assert PageLimit(25, PerPage) == 2.5;
    assert Truncate(15.0) == 15 && Truncate(25.0) == 25;
  }

  /** A move by zero keeps every page the clamp itself can produce in range. */
  lemma MoveByZeroKeepsPage(s: State, len: nat)
    requires s.perPage > 0
    requires s.page == 0.0 || 0.0 < s.page <= PageLimit(len, s.perPage)
    ensures MovePage(s, 0, len) == s
  {
  }

  /** The clamp on concrete inputs: back past the start, forward past the end
      of a 100-comment list, and any forward move over an empty list. */
  lemma ClampExamples()
    ensures MovePage(State(0.0, PerPage), -5, 100).page == 0.0
    ensures MovePage(State(9.0, PerPage), 5, 100).page == 9.0
    ensures MovePage(State(3.0, PerPage), -1, 100).page == 2.0
    ensures MovePage(Initial, 1, 0).page == -1.0
    ensures Visible<int>(MovePage(Initial, 1, 0), Some([])) == []
  {
  }
}

=== FILE: common.dfy ===
/** Failure-carrying wrappers shared by the rest of the model. */
module Common {

  /** A value that may be absent: JavaScript's `undefined` for a missing field. */
  datatype Option<+T> = None | Some(value: T)

  /** The outcome of an operation that can fail: the source throws, or has
      no bound to hand to the renderer. */
  datatype Result<+R, +E> = Success(value: R) | Failure(error: E)

  function Min(a: int, b: int): int { if a <= b then a else b }

  function Max(a: int, b: int): int { if a <= b then b else a }
}

=== FILE: extremes.dfy ===
/** The selection helpers Utils.argMin and Utils.argMax, whose bodies are not
    part of this model, written by their evident role: a linear scan that keeps
    the first element whose key is strictly better than every earlier one. */
module Extremes {

  /** A selection key: a finite number or one of the sentinels -Infinity and
      +Infinity the renderer returns for an empty dataset. */
  datatype Key = NegInf | Fin(v: int) | PosInf

  /** The numeric order extended with the two infinities. */
  predicate KeyLe(a: Key, b: Key)
  {
    match (a, b)
    case (NegInf, _) => true
    case (_, PosInf) => true
    case (Fin(x), Fin(y)) => x <= y
    case _ => false
  }

  predicate KeyLt(a: Key, b: Key)
  {
    !KeyLe(b, a)
  }

  /** Index of the first element with the least key. */
  function ArgMin<T>(xs: seq<T>, key: T -> Key): (i: nat)
    requires |xs| > 0
    ensures i < |xs|
    ensures forall j :: 0 <= j < |xs| ==> KeyLe(key(xs[i]), key(xs[j]))
    ensures forall j :: 0 <= j < i ==> KeyLt(key(xs[i]), key(xs[j]))
  {
    if |xs| == 1 then 0
    else
      var best := ArgMin(xs[..|xs| - 1], key);
      if KeyLt(key(xs[|xs| - 1]), key(xs[best])) then |xs| - 1 else best
  }

  /** Index of the first element with the greatest key. */
  function ArgMax<T>(xs: seq<T>, key: T -> Key): (i: nat)
    requires |xs| > 0
    ensures i < |xs|
    ensures forall j :: 0 <= j < |xs| ==> KeyLe(key(xs[j]), key(xs[i]))
    ensures forall j :: 0 <= j < i ==> KeyLt(key(xs[j]), key(xs[i]))
  {
    if |xs| == 1 then 0
    else
      var best := ArgMax(xs[..|xs| - 1], key);
      if KeyLt(key(xs[best]), key(xs[|xs| - 1])) then |xs| - 1 else best
  }
}

=== FILE: homepage.dfy ===
/** The beta-signup form validator of the homepage view. */
module Homepage {

  /** A form field value as JavaScript sees it. */
  datatype Value = Undefined | Null | Text(s: string) | Number(n: real) | Boolean(b: bool)

  /** One entry of the errors array: the field it is reported against and the message. */
  datatype FieldError = FieldError(name: string, message: string)

  /** The error reported for an empty email. It names the field "description". */
  const MissingEmail: FieldError := FieldError("description", "hey there... you need an email")

  /** `attrs.email === ""`: strict equality holds only for the empty string. */
  predicate EmailIsEmptyString(attrs: map<string, Value>)
  {
    "email" in attrs && attrs["email"] == Text("")
  }

  /** validateInput(attrs): one error exactly when the email is the empty
      string, and that error is MissingEmail; otherwise no errors. */
  function ValidateInput(attrs: map<string, Value>): (errors: seq<FieldError>)
    ensures |errors| <= 1
    ensures |errors| == 1 <==> EmailIsEmptyString(attrs)
    ensures forall i :: 0 <= i < |errors| ==> errors[i] == MissingEmail
  {
    var errors: seq<FieldError> := [];
    if "email" in attrs && attrs["email"] == Text("") then errors + [MissingEmail] else errors
  }

  /** Only the email field is read: forms that agree on it validate alike. */
  lemma OnlyEmailMatters(a: map<string, Value>, b: map<string, Value>)
    requires ("email" in a <==> "email" in b)
    requires "email" in a ==> a["email"] == b["email"]
    ensures ValidateInput(a) == ValidateInput(b)
  {
  }

  /** A missing, undefined, null or non-empty email passes validation. */
  lemma OnlyEmptyStringFails(attrs: map<string, Value>)
    requires "email" !in attrs || attrs["email"] != Text("")
    ensures ValidateInput(attrs) == []
  {
  }
}

=== FILE: stats_chart.dfy ===
/** Chart preparation from conversationStatsView.renderParticipantGraph: the
    requested series are picked out of `times`, a shared time domain and count
    range are selected across them, and each picked series becomes a line with
    its colour. Scales, axes, clipping and zoom are not modelled. */
module StatsChart {
  import opened Common
  import opened StatsSeries
  import opened Extremes

  /** Line colour per series name. */
  const Colors: map<string, string> := map[
    "voteTimes" := "steelblue",
    "firstVoteTimes" := "orange",
    "commentTimes" := "steelblue",
    "firstCommentTimes" := "red",
    "viewTimes" := "steelblue"
  ]

  /** Display label per series name. */
  const DisplayNames: map<string, string> := map[
    "voteTimes" := "Votes",
    "firstVoteTimes" := "Participants",
    "commentTimes" := "Comments",
    "firstCommentTimes" := "Commenters",
    "viewTimes" := "Viewers"
  ]

  /** The five series names both tables know. */
  const KnownSeries: set<string> :=
    {"voteTimes", "firstVoteTimes", "commentTimes", "firstCommentTimes", "viewTimes"}

  /** The three charts drawn after every refresh, in drawing order. */
  const ParticipantsChart: seq<string> := ["firstVoteTimes", "firstCommentTimes", "viewTimes"]
  const VotesChart: seq<string> := ["voteTimes"]
  const CommentsChart: seq<string> := ["commentTimes"]
  const ChartRequests: seq<seq<string>> := [ParticipantsChart, VotesChart, CommentsChart]

  /** `colors[name]`, which is undefined for a name outside the table. */
  function LineColor(name: string): (c: Option<string>)
    ensures c.Some? <==> name in KnownSeries
    ensures c.Some? ==> c.value in {"steelblue", "orange", "red"}
  {
    if name in Colors then Some(Colors[name]) else None
  }

  /** `names[name]`, which is undefined for a name outside the table. */
  function DisplayName(name: string): Option<string>
  {
    if name in DisplayNames then Some(DisplayNames[name]) else None
  }

  /** A series picked for one chart. */
  datatype Entry = Entry(name: string, points: seq<Point>)

  function NamesOf(es: seq<Entry>): (ns: seq<string>)
    ensures |ns| == |es|
    ensures forall i :: 0 <= i < |es| ==> ns[i] == es[i].name
  {
    seq(|es|, i requires 0 <= i < |es| => es[i].name)
  }

  function DatasetsOf(es: seq<Entry>): (ds: seq<seq<Point>>)
    ensures |ds| == |es|
    ensures forall i :: 0 <= i < |es| ==> ds[i] == es[i].points
  {
    seq(|es|, i requires 0 <= i < |es| => es[i].points)
  }

  /** `_.pick(times, requested)`: the requested names present in `times`, each
      once, in the order of their first request. */
  function Pick(times: map<string, seq<Point>>, requested: seq<string>): (r: seq<Entry>)
    ensures forall i :: 0 <= i < |r| ==>
      r[i].name in requested && r[i].name in times && r[i].points == times[r[i].name]
    ensures forall n :: n in requested && n in times ==> n in NamesOf(r)
    ensures forall i, j :: 0 <= i < j < |r| ==> r[i].name != r[j].name
  {
    if |requested| == 0 then []
    else
      var earlier := Pick(times, requested[..|requested| - 1]);
      var n := requested[|requested| - 1];
      assert requested == requested[..|requested| - 1] + [n];
      if n in times && n !in NamesOf(earlier) then
        var r := earlier + [Entry(n, times[n])];
        assert NamesOf(r) == NamesOf(earlier) + [n];
        r
      else earlier
  }

  /** The keys renderParticipantGraph passes to its argMin/argMax calls. An
      empty dataset gets the sentinel that loses to every finite key, and so
      does an endpoint without a count; it is chosen only when no dataset has
      a finite key. */
  function StartTimeKey(d: seq<Point>): Key
  {
    if |d| == 0 then PosInf else Fin(d[0].created)
  }

  function EndTimeKey(d: seq<Point>): Key
  {
    if |d| == 0 then NegInf else Fin(d[|d| - 1].created)
  }

  function StartCountKey(d: seq<Point>): Key
  {
    if |d| == 0 || d[0].count.None? then PosInf else Fin(d[0].count.value)
  }

  function EndCountKey(d: seq<Point>): Key
  {
    if |d| == 0 || d[|d| - 1].count.None? then NegInf else Fin(d[|d| - 1].count.value)
  }

  /** A closed interval handed to a scale's `domain`. */
  datatype Bounds = Bounds(lo: int, hi: int)

  /** `v` is the earliest first time among the non-empty datasets. */
  ghost predicate EarliestStart(ds: seq<seq<Point>>, v: int)
  {
    && (exists j :: 0 <= j < |ds| && |ds[j]| > 0 && ds[j][0].created == v)
    && (forall j :: 0 <= j < |ds| && |ds[j]| > 0 ==> v <= ds[j][0].created)
  }

  /** `v` is the latest last time among the non-empty datasets. */
  ghost predicate LatestEnd(ds: seq<seq<Point>>, v: int)
  {
    && (exists j :: 0 <= j < |ds| && |ds[j]| > 0 && ds[j][|ds[j]| - 1].created == v)
    && (forall j :: 0 <= j < |ds| && |ds[j]| > 0 ==> ds[j][|ds[j]| - 1].created <= v)
  }

  /** `v` is the least first count among the datasets whose first point has one. */
  ghost predicate LowestStartCount(ds: seq<seq<Point>>, v: int)
  {
    && (exists j :: 0 <= j < |ds| && |ds[j]| > 0 && ds[j][0].count == Some(v))
    && (forall j :: 0 <= j < |ds| && |ds[j]| > 0 && ds[j][0].count.Some? ==> v <= ds[j][0].count.value)
  }

  /** `v` is the greatest last count among the datasets whose last point has one. */
  ghost predicate HighestEndCount(ds: seq<seq<Point>>, v: int)
  {
    && (exists j :: 0 <= j < |ds| && |ds[j]| > 0 && ds[j][|ds[j]| - 1].count == Some(v))
    && (forall j :: 0 <= j < |ds| && |ds[j]| > 0 && ds[j][|ds[j]| - 1].count.Some? ==>
          ds[j][|ds[j]| - 1].count.value <= v)
  }

  /** The x-scale domain: the first point of the dataset with the earliest
      start and the last point of the dataset with the latest end. With no
      non-empty dataset the source indexes past an empty array and throws. */
  function TimeDomain(ds: seq<seq<Point>>): (r: Option<Bounds>)
    ensures r.None? <==> forall j :: 0 <= j < |ds| ==> |ds[j]| == 0
    ensures r.Some? ==> EarliestStart(ds, r.value.lo) && LatestEnd(ds, r.value.hi)
  {
    if |ds| == 0 then None
    else
      var first := ds[ArgMin(ds, StartTimeKey)];
      var last := ds[ArgMax(ds, EndTimeKey)];
      if |first| == 0 || |last| == 0 then None
      else Some(Bounds(first[0].created, last[|last| - 1].created))
  }

  /** No dataset starts with a counted point. */
  ghost predicate NoStartCount(ds: seq<seq<Point>>)
  {
    forall j :: 0 <= j < |ds| ==> StartCountKey(ds[j]) == PosInf
  }

  /** No dataset ends with a counted point. */
  ghost predicate NoEndCount(ds: seq<seq<Point>>)
  {
    forall j :: 0 <= j < |ds| ==> EndCountKey(ds[j]) == NegInf
  }

  /** The y-scale domain: the first count of the dataset with the lowest
      start count and the last count of the dataset with the highest end. */
  function CountRange(ds: seq<seq<Point>>): (r: Option<Bounds>)
    ensures r.None? <==>
      NoStartCount(ds) || NoEndCount(ds)
    ensures r.Some? ==> LowestStartCount(ds, r.value.lo) && HighestEndCount(ds, r.value.hi)
  {
    if |ds| == 0 then None
    else
      var low := ds[ArgMin(ds, StartCountKey)];
      var high := ds[ArgMax(ds, EndCountKey)];
      if |low| == 0 || low[0].count.None? || |high| == 0 || high[|high| - 1].count.None? then None
      else Some(Bounds(low[0].count.value, high[|high| - 1].count.value))
  }

  /** One drawn path: the series name, its stroke colour and its data. */
  datatype Line = Line(name: string, color: Option<string>, points: seq<Point>)

  datatype Chart = Chart(timeDomain: Bounds, countRange: Bounds, lines: seq<Line>)

  /** NoTimeBounds: the source throws while reading the domain endpoints.
      NoCountBounds: no selected series has a counted endpoint. What the source
      then does depends on argMin/argMax, which are not part of this model; the
      model assumes the render goes on with an undefined y bound and so does
      not stop the refresh. */
  datatype RenderError = NoTimeBounds | NoCountBounds

  function LinesOf(es: seq<Entry>): (ls: seq<Line>)
    ensures |ls| == |es|
    ensures forall i :: 0 <= i < |es| ==>
      ls[i] == Line(es[i].name, LineColor(es[i].name), es[i].points)
  {
    seq(|es|, i requires 0 <= i < |es| => Line(es[i].name, LineColor(es[i].name), es[i].points))
  }

  /** `n` names a series of `times` that the chart asked for. */
  ghost predicate Selected(times: map<string, seq<Point>>, requested: seq<string>, n: string)
  {
    n in requested && n in times
  }

  /** No selected series has a first point with a count: each is empty or
      starts with a count-less point. */
  ghost predicate NoCountedStart(times: map<string, seq<Point>>, requested: seq<string>)
  {
    forall n :: Selected(times, requested, n) ==> StartCountKey(times[n]) == PosInf
  }

  /** No selected series has a last point with a count. */
  ghost predicate NoCountedEnd(times: map<string, seq<Point>>, requested: seq<string>)
  {
    forall n :: Selected(times, requested, n) ==> EndCountKey(times[n]) == NegInf
  }

  /** `picked` holds exactly the selected series: every entry is a selected
      name with its own series, and every selected name has an entry. */
  ghost predicate PicksSelection(times: map<string, seq<Point>>, requested: seq<string>, picked: seq<Entry>)
  {
    && (forall j :: 0 <= j < |picked| ==>
          Selected(times, requested, picked[j].name) && picked[j].points == times[picked[j].name])
    && (forall n :: Selected(times, requested, n) ==> exists j :: 0 <= j < |picked| && picked[j].name == n)
  }

  /** `v` is the earliest first time over the selected non-empty series. */
  ghost predicate EarliestSelectedStart(times: map<string, seq<Point>>, requested: seq<string>, v: int)
  {
    && (exists n :: Selected(times, requested, n) && |times[n]| > 0 && times[n][0].created == v)
    && (forall n :: Selected(times, requested, n) && |times[n]| > 0 ==> v <= times[n][0].created)
  }

  /** `v` is the latest last time over the selected non-empty series. */
  ghost predicate LatestSelectedEnd(times: map<string, seq<Point>>, requested: seq<string>, v: int)
  {
    && (exists n :: Selected(times, requested, n) && |times[n]| > 0 && times[n][|times[n]| - 1].created == v)
    && (forall n :: Selected(times, requested, n) && |times[n]| > 0 ==> times[n][|times[n]| - 1].created <= v)
  }

  /** `v` is the lowest first count over the selected series that start with a count. */
  ghost predicate LowestSelectedCount(times: map<string, seq<Point>>, requested: seq<string>, v: int)
  {
    && (exists n :: Selected(times, requested, n) && |times[n]| > 0 && times[n][0].count == Some(v))
    && (forall n :: Selected(times, requested, n) && |times[n]| > 0 && times[n][0].count.Some? ==>
          v <= times[n][0].count.value)
  }

  /** `v` is the highest last count over the selected series that end with a count. */
  ghost predicate HighestSelectedCount(times: map<string, seq<Point>>, requested: seq<string>, v: int)
  {
    && (exists n :: Selected(times, requested, n) && |times[n]| > 0 && times[n][|times[n]| - 1].count == Some(v))
    && (forall n :: (Selected(times, requested, n) && |times[n]| > 0 && times[n][|times[n]| - 1].count.Some?) ==>
          times[n][|times[n]| - 1].count.value <= v)
  }

  /** renderParticipantGraph(id, requested) up to the point where scales are built. */
  function RenderChart(times: map<string, seq<Point>>, requested: seq<string>)
    : (r: Result<Chart, RenderError>)
    ensures r == Failure(NoTimeBounds) <==>
      forall n :: Selected(times, requested, n) ==> |times[n]| == 0
    ensures r.Success? ==>
      forall i :: 0 <= i < |r.value.lines| ==>
        var l := r.value.lines[i];
        Selected(times, requested, l.name) && l.points == times[l.name] && l.color == LineColor(l.name)
    ensures r.Success? ==>
      forall n :: Selected(times, requested, n) ==>
        exists i :: 0 <= i < |r.value.lines| && r.value.lines[i].name == n
    ensures r.Success? ==>
      forall i, j :: 0 <= i < j < |r.value.lines| ==> r.value.lines[i].name != r.value.lines[j].name
    ensures r.Success? <==>
      && !(forall n :: Selected(times, requested, n) ==> |times[n]| == 0)
      && !NoCountedStart(times, requested)
      && !NoCountedEnd(times, requested)
  {
    var picked := Pick(times, requested);
    var domain := TimeDomain(DatasetsOf(picked));
    var range := CountRange(DatasetsOf(picked));
    PickPicksSelection(times, requested);
    BoundsOverNames(times, requested, picked);
    if domain.None? then Failure(NoTimeBounds)
    else if range.None? then Failure(NoCountBounds)
    else
      PickedLines(times, requested);
      Success(Chart(domain.value, range.value, LinesOf(picked)))
  }

  /** The chart's bounds are the bounds of the picked datasets. */
  lemma RenderChartParts(times: map<string, seq<Point>>, requested: seq<string>)
    ensures var r := RenderChart(times, requested);
      r.Success? ==>
        && TimeDomain(DatasetsOf(Pick(times, requested))) == Some(r.value.timeDomain)
        && CountRange(DatasetsOf(Pick(times, requested))) == Some(r.value.countRange)
  {
  }

  /** Pick's result holds exactly the selected series. */
  lemma PickPicksSelection(times: map<string, seq<Point>>, requested: seq<string>)
    ensures PicksSelection(times, requested, Pick(times, requested))
  {
    var picked := Pick(times, requested);
    forall n | Selected(times, requested, n)
      ensures exists j :: 0 <= j < |picked| && picked[j].name == n
    {
      assert n in NamesOf(picked);
      var j :| 0 <= j < |picked| && NamesOf(picked)[j] == n;
      assert picked[j].name == n;
    }
    assert picked == Pick(times, requested);
  }

  /** The lines drawn for a chart: one per selected name, with its series and colour. */
  lemma PickedLines(times: map<string, seq<Point>>, requested: seq<string>)
    ensures var ls := LinesOf(Pick(times, requested));
      && (forall i :: 0 <= i < |ls| ==>
            Selected(times, requested, ls[i].name) && ls[i].points == times[ls[i].name]
            && ls[i].color == LineColor(ls[i].name))
      && (forall n :: Selected(times, requested, n) ==> exists i :: 0 <= i < |ls| && ls[i].name == n)
      && (forall i, j :: 0 <= i < j < |ls| ==> ls[i].name != ls[j].name)
  {
    var picked := Pick(times, requested);
    var ls := LinesOf(picked);
    forall n | Selected(times, requested, n)
      ensures exists i :: 0 <= i < |ls| && ls[i].name == n
    {
      assert n in NamesOf(picked);
      var i :| 0 <= i < |picked| && NamesOf(picked)[i] == n;
      assert ls[i].name == n;
    }
  }

  /** All picked datasets are empty exactly when all selected series are. */
  lemma AllEmptyOverNames(times: map<string, seq<Point>>, requested: seq<string>, picked: seq<Entry>)
    requires PicksSelection(times, requested, picked)
    ensures (forall j :: 0 <= j < |DatasetsOf(picked)| ==> |DatasetsOf(picked)[j]| == 0) <==>
      (forall n :: Selected(times, requested, n) ==> |times[n]| == 0)
  {
    var ds := DatasetsOf(picked);
    if forall j :: 0 <= j < |ds| ==> |ds[j]| == 0 {
      forall n | Selected(times, requested, n)
        ensures |times[n]| == 0
      {
        var j :| 0 <= j < |picked| && picked[j].name == n;
        assert ds[j] == times[n];
      }
    } else {
      var j :| 0 <= j < |ds| && |ds[j]| > 0;
      assert Selected(times, requested, picked[j].name) && ds[j] == times[picked[j].name];
    }
  }

  /** Whether the picked datasets have a time domain and a count range,
      read over the selected names. */
  lemma BoundsOverNames(times: map<string, seq<Point>>, requested: seq<string>, picked: seq<Entry>)
    requires PicksSelection(times, requested, picked)
    ensures TimeDomain(DatasetsOf(picked)).None? <==>
      forall n :: Selected(times, requested, n) ==> |times[n]| == 0
    ensures CountRange(DatasetsOf(picked)).None? <==>
      NoCountedStart(times, requested) || NoCountedEnd(times, requested)
  {
    AllEmptyOverNames(times, requested, picked);
    CountedStartOverNames(times, requested, picked);
    CountedEndOverNames(times, requested, picked);
  }

  /** No picked dataset starts with a count exactly when no selected series does. */
  lemma CountedStartOverNames(times: map<string, seq<Point>>, requested: seq<string>, picked: seq<Entry>)
    requires PicksSelection(times, requested, picked)
    ensures NoStartCount(DatasetsOf(picked)) <==>
      NoCountedStart(times, requested)
  {
    var ds := DatasetsOf(picked);
    if NoStartCount(ds) {
      forall n | Selected(times, requested, n)
        ensures StartCountKey(times[n]) == PosInf
      {
        var j :| 0 <= j < |picked| && picked[j].name == n;
        assert ds[j] == times[n];
      }
    } else {
      var j :| 0 <= j < |ds| && StartCountKey(ds[j]) != PosInf;
      assert Selected(times, requested, picked[j].name) && ds[j] == times[picked[j].name];
    }
  }

  /** No picked dataset ends with a count exactly when no selected series does. */
  lemma CountedEndOverNames(times: map<string, seq<Point>>, requested: seq<string>, picked: seq<Entry>)
    requires PicksSelection(times, requested, picked)
    ensures NoEndCount(DatasetsOf(picked)) <==>
      NoCountedEnd(times, requested)
  {
    var ds := DatasetsOf(picked);
    if NoEndCount(ds) {
      forall n | Selected(times, requested, n)
        ensures EndCountKey(times[n]) == NegInf
      {
        var j :| 0 <= j < |picked| && picked[j].name == n;
        assert ds[j] == times[n];
      }
    } else {
      var j :| 0 <= j < |ds| && EndCountKey(ds[j]) != NegInf;
      assert Selected(times, requested, picked[j].name) && ds[j] == times[picked[j].name];
    }
  }

  /** The lower end of the time domain of the picked datasets, read over the selected names. */
  lemma EarliestOverNames(times: map<string, seq<Point>>, requested: seq<string>, picked: seq<Entry>, v: int)
    requires PicksSelection(times, requested, picked)
    requires EarliestStart(DatasetsOf(picked), v)
    ensures EarliestSelectedStart(times, requested, v)
  {
    var ds := DatasetsOf(picked);
    forall n | Selected(times, requested, n) && |times[n]| > 0
      ensures v <= times[n][0].created
    {
      var j :| 0 <= j < |picked| && picked[j].name == n;
      assert ds[j] == times[n];
    }
    var j1 :| 0 <= j1 < |ds| && |ds[j1]| > 0 && ds[j1][0].created == v;
    assert Selected(times, requested, picked[j1].name) && ds[j1] == times[picked[j1].name];
  }

  /** The upper end of the time domain of the picked datasets, read over the selected names. */
  lemma LatestOverNames(times: map<string, seq<Point>>, requested: seq<string>, picked: seq<Entry>, v: int)
    requires PicksSelection(times, requested, picked)
    requires LatestEnd(DatasetsOf(picked), v)
    ensures LatestSelectedEnd(times, requested, v)
  {
    var ds := DatasetsOf(picked);
    forall n | Selected(times, requested, n) && |times[n]| > 0
      ensures times[n][|times[n]| - 1].created <= v
    {
      var j :| 0 <= j < |picked| && picked[j].name == n;
      assert ds[j] == times[n];
    }
    var j2 :| 0 <= j2 < |ds| && |ds[j2]| > 0 && ds[j2][|ds[j2]| - 1].created == v;
    assert Selected(times, requested, picked[j2].name) && ds[j2] == times[picked[j2].name];
  }

  /** The lower end of the count range of the picked datasets, read over the selected names. */
  lemma LowCountOverNames(times: map<string, seq<Point>>, requested: seq<string>, picked: seq<Entry>, v: int)
    requires PicksSelection(times, requested, picked)
    requires LowestStartCount(DatasetsOf(picked), v)
    ensures LowestSelectedCount(times, requested, v)
  {
    var ds := DatasetsOf(picked);
    forall n | Selected(times, requested, n) && |times[n]| > 0 && times[n][0].count.Some?
      ensures v <= times[n][0].count.value
    {
      var j :| 0 <= j < |picked| && picked[j].name == n;
      assert ds[j] == times[n];
    }
    var j1 :| 0 <= j1 < |ds| && |ds[j1]| > 0 && ds[j1][0].count == Some(v);
    assert Selected(times, requested, picked[j1].name) && ds[j1] == times[picked[j1].name];
  }

  /** The upper end of the count range of the picked datasets, read over the selected names. */
  lemma HighCountOverNames(times: map<string, seq<Point>>, requested: seq<string>, picked: seq<Entry>, v: int)
    requires PicksSelection(times, requested, picked)
    requires HighestEndCount(DatasetsOf(picked), v)
    ensures HighestSelectedCount(times, requested, v)
  {
    var ds := DatasetsOf(picked);
    forall n | Selected(times, requested, n) && |times[n]| > 0 && times[n][|times[n]| - 1].count.Some?
      ensures times[n][|times[n]| - 1].count.value <= v
    {
      var j :| 0 <= j < |picked| && picked[j].name == n;
      assert ds[j] == times[n];
    }
    var j2 :| 0 <= j2 < |ds| && |ds[j2]| > 0 && ds[j2][|ds[j2]| - 1].count == Some(v);
    assert Selected(times, requested, picked[j2].name) && ds[j2] == times[picked[j2].name];
  }

  /** The chart's time domain runs from the earliest first time to the latest
      last time over the selected non-empty series; empty series take no part. */
  lemma RenderedTimeDomainIsExtremal(times: map<string, seq<Point>>, requested: seq<string>)
    ensures var r := RenderChart(times, requested);
      r.Success? ==>
        EarliestSelectedStart(times, requested, r.value.timeDomain.lo)
        && LatestSelectedEnd(times, requested, r.value.timeDomain.hi)
  {
    var r := RenderChart(times, requested);
    if r.Success? {
      var d := r.value.timeDomain;
      RenderChartParts(times, requested);
      PickPicksSelection(times, requested);
      EarliestOverNames(times, requested, Pick(times, requested), d.lo);
      LatestOverNames(times, requested, Pick(times, requested), d.hi);
    }
  }

  /** The chart's count range runs from the lowest first count to the highest
      last count over the selected series whose endpoints carry a count. */
  lemma RenderedCountRangeIsExtremal(times: map<string, seq<Point>>, requested: seq<string>)
    ensures var r := RenderChart(times, requested);
      r.Success? ==>
        LowestSelectedCount(times, requested, r.value.countRange.lo)
        && HighestSelectedCount(times, requested, r.value.countRange.hi)
  {
    var r := RenderChart(times, requested);
    if r.Success? {
      var c := r.value.countRange;
      RenderChartParts(times, requested);
      PickPicksSelection(times, requested);
      LowCountOverNames(times, requested, Pick(times, requested), c.lo);
      HighCountOverNames(times, requested, Pick(times, requested), c.hi);
    }
  }

  /** Colours are defined for exactly the five known names, which are also
      exactly the names with a display label; votes, comments and viewers
      share one colour. */
  lemma ColorTable()
    ensures forall n :: LineColor(n).Some? <==> n in KnownSeries
    ensures forall n :: DisplayName(n).Some? <==> n in KnownSeries
    ensures forall n :: LineColor(n) == Some("steelblue") <==>
      (n == "voteTimes" || n == "commentTimes" || n == "viewTimes")
    ensures LineColor("firstVoteTimes") == Some("orange")
    ensures LineColor("firstCommentTimes") == Some("red")
  {
  }

  /** Applies `f` to each element in turn and stops after the first result
      equal to `stop`, the way a thrown exception ends a sequence of calls. */
  function UntilFirst<A, B(==)>(xs: seq<A>, f: A -> B, stop: B): (rs: seq<B>)
    ensures |rs| <= |xs|
    ensures forall i :: 0 <= i < |rs| ==> rs[i] == f(xs[i])
    ensures forall i :: 0 <= i < |rs| - 1 ==> rs[i] != stop
    ensures |rs| < |xs| ==> |rs| > 0 && rs[|rs| - 1] == stop
  {
    if |xs| == 0 then []
    else
      var r := f(xs[0]);
      if r == stop then [r] else [r] + UntilFirst(xs[1..], f, stop)
  }

  /** The charts of one refresh, drawn in order. Reading the domain of a chart
      with no non-empty series throws, so no later chart is drawn. */
  function RenderInOrder(times: map<string, seq<Point>>, requests: seq<seq<string>>)
    : (rs: seq<Result<Chart, RenderError>>)
    ensures |rs| <= |requests|
    ensures forall i :: 0 <= i < |rs| ==> rs[i] == RenderChart(times, requests[i])
    ensures forall i :: 0 <= i < |rs| - 1 ==> rs[i] != Failure(NoTimeBounds)
    ensures |rs| < |requests| ==> |rs| > 0 && rs[|rs| - 1] == Failure(NoTimeBounds)
  {
    UntilFirst(requests, (req: seq<string>) => RenderChart(times, req), Failure(NoTimeBounds))
  }

  /** The success continuation of checkForLatestStats: build `times` from the
      fetched statistics, then draw the participants, votes and comments charts. */
  function RefreshCharts(stats: map<string, seq<int>>, clock: string -> int, sample: Sampler)
    : (rs: seq<Result<Chart, RenderError>>)
    ensures 1 <= |rs| <= 3
    ensures rs[0] == RenderChart(BuildTimes(stats, clock, sample), ParticipantsChart)
    ensures |rs| > 1 ==>
      rs[0] != Failure(NoTimeBounds) && rs[1] == RenderChart(BuildTimes(stats, clock, sample), VotesChart)
    ensures |rs| > 2 ==>
      rs[1] != Failure(NoTimeBounds) && rs[2] == RenderChart(BuildTimes(stats, clock, sample), CommentsChart)
    ensures |rs| < 3 ==> rs[|rs| - 1] == Failure(NoTimeBounds)
  {
    var times := BuildTimes(stats, clock, sample);
    RefreshOrder(times);
    RenderInOrder(times, ChartRequests)
  }

  /** The three charts of a refresh, over any `times`: participants first,
      then votes, then comments, each drawn only after the one before got
      its time domain. */
  lemma RefreshOrder(times: map<string, seq<Point>>)
    ensures var rs := RenderInOrder(times, ChartRequests);
      && 1 <= |rs| <= 3
      && rs[0] == RenderChart(times, ParticipantsChart)
      && (|rs| > 1 ==> rs[0] != Failure(NoTimeBounds) && rs[1] == RenderChart(times, VotesChart))
      && (|rs| > 2 ==> rs[1] != Failure(NoTimeBounds) && rs[2] == RenderChart(times, CommentsChart))
      && (|rs| < 3 ==> rs[|rs| - 1] == Failure(NoTimeBounds))
  {
    assert |ChartRequests| == 3;
    assert ChartRequests[0] == ParticipantsChart && ChartRequests[1] == VotesChart;
    assert ChartRequests[2] == CommentsChart;
  }

  /** A chart that asks for at least one fetched key gets past its time
      domain: a fetched series is never empty. */
  lemma FetchedChartGetsTimeBounds(
    stats: map<string, seq<int>>, clock: string -> int, sample: Sampler, requested: seq<string>, n: string)
    requires n in requested && n in stats
    ensures RenderChart(BuildTimes(stats, clock, sample), requested) != Failure(NoTimeBounds)
  {
    var times := BuildTimes(stats, clock, sample);
    assert Selected(times, requested, n) && |times[n]| > 0;
  }

  /** When each chart of a refresh asks for at least one fetched key, every
      chart is drawn and none of them fails on its time domain. */
  lemma FetchedChartsAllGetTimeBounds(
    stats: map<string, seq<int>>, clock: string -> int, sample: Sampler, requests: seq<seq<string>>)
    requires forall i :: 0 <= i < |requests| ==> exists n :: n in requests[i] && n in stats
    ensures var rs := RenderInOrder(BuildTimes(stats, clock, sample), requests);
      |rs| == |requests| && forall i :: 0 <= i < |rs| ==> rs[i] != Failure(NoTimeBounds)
  {
    var times := BuildTimes(stats, clock, sample);
    var draw := (req: seq<string>) => RenderChart(times, req);
    forall i | 0 <= i < |requests|
      ensures draw(requests[i]) != Failure(NoTimeBounds)
    {
      var n :| n in requests[i] && n in stats;
      FetchedChartGetsTimeBounds(stats, clock, sample, requests[i], n);
    }
    var rs := UntilFirst(requests, draw, Failure(NoTimeBounds));
    assert rs == RenderInOrder(times, requests);
  }

  /** A conversation with no votes yet: `voteTimes` is fetched as an empty
      array, so its series is the single count-less point at the clock
      reading. The votes chart then has no count range, and the refresh goes
      on to the comments chart. */
  lemma NoVotesYet(stats: map<string, seq<int>>, clock: string -> int, sample: Sampler)
    requires "firstVoteTimes" in stats && "voteTimes" in stats && stats["voteTimes"] == []
    requires sample([], SampleTarget) == []
    ensures var rs := RefreshCharts(stats, clock, sample);
      |rs| == 3 && rs[1] == Failure(NoCountBounds)
  {
    var times := BuildTimes(stats, clock, sample);
    EmptyTimestampsGiveOnlyNow(clock("voteTimes"), sample);
    assert times["voteTimes"] == [Point(None, clock("voteTimes"))];
    UncountedVotesSeries(times);
  }

  /** The refresh over any `times` whose participant series is non-empty and
      whose votes series is one count-less point. */
  lemma UncountedVotesSeries(times: map<string, seq<Point>>)
    requires "firstVoteTimes" in times && |times["firstVoteTimes"]| > 0
    requires "voteTimes" in times && |times["voteTimes"]| == 1 && times["voteTimes"][0].count.None?
    ensures var rs := RenderInOrder(times, ChartRequests);
      |rs| == 3 && rs[1] == Failure(NoCountBounds)
  {
    ParticipantsChartGetsTimeBounds(times);
    UncountedVotesChart(times);
    RefreshOrder(times);
  }

  /** A non-empty participant series gives the participants chart its time domain. */
  lemma ParticipantsChartGetsTimeBounds(times: map<string, seq<Point>>)
    requires "firstVoteTimes" in times && |times["firstVoteTimes"]| > 0
    ensures RenderChart(times, ParticipantsChart) != Failure(NoTimeBounds)
  {
    assert Selected(times, ParticipantsChart, "firstVoteTimes");
  }

  /** A votes series of one count-less point leaves the votes chart without a count range. */
  lemma UncountedVotesChart(times: map<string, seq<Point>>)
    requires "voteTimes" in times && |times["voteTimes"]| == 1 && times["voteTimes"][0].count.None?
    ensures RenderChart(times, VotesChart) == Failure(NoCountBounds)
  {
    assert Selected(times, VotesChart, "voteTimes");
    assert NoCountedStart(times, VotesChart);
  }

  /** When none of the three participant series was fetched, the first chart
      throws and the votes and comments charts are never drawn. */
  lemma MissingParticipantSeriesStopsRefresh(stats: map<string, seq<int>>, clock: string -> int, sample: Sampler)
    requires forall n :: n in ParticipantsChart ==> n !in stats
    ensures RefreshCharts(stats, clock, sample) == [Failure(NoTimeBounds)]
  {
    var times := BuildTimes(stats, clock, sample);
    assert RenderChart(times, ParticipantsChart) == Failure(NoTimeBounds);
  }
}

=== FILE: stats_series.dfy ===
/** Series preparation from conversationStatsView.checkForLatestStats: every
    fetched array of arrival timestamps becomes a sequence of points carrying a
    running count, is passed through the sampler, and is extended to "now" by
    one synthetic trailing point. */
module StatsSeries {
  import opened Common

  /** A plotted point: a running count and an arrival time in milliseconds.
      `count` is absent on the synthetic point built from an empty sample. */
  datatype Point = Point(count: Option<int>, created: int)

  /** Utils.evenlySample(points, target), whose body is not part of this model. */
  type Sampler = (seq<Point>, nat) -> seq<Point>

  /** The sampling target the source passes to the sampler. */
  const SampleTarget: nat := 300

  /** The points of `ts` numbered from `first` on, in input order. */
  function CountFrom(ts: seq<int>, first: int): (r: seq<Point>)
    ensures |r| == |ts|
    ensures forall i :: 0 <= i < |ts| ==> r[i] == Point(Some(first + i), ts[i])
  {
    if |ts| == 0 then []
    else [Point(Some(first), ts[0])] + CountFrom(ts[1..], first + 1)
  }

  /** The source's `_.map` with a counter `i` that starts at 1 and is
      post-incremented once per timestamp. */
  function ToPoints(ts: seq<int>): (r: seq<Point>)
    ensures |r| == |ts|
    ensures forall i :: 0 <= i < |ts| ==> r[i].count == Some(i + 1) && r[i].created == ts[i]
  {
    CountFrom(ts, 1)
  }

  /** Appends a copy of the last point with `created` replaced by `now`; from
      an empty sequence the copy is of `undefined`, so it has no count. */
  function ExtendToNow(data: seq<Point>, now: int): (r: seq<Point>)
    ensures |r| == |data| + 1
    ensures r[..|data|] == data
    ensures r[|data|].created == now
    ensures |data| == 0 ==> r[|data|].count == None
    ensures |data| > 0 ==> r[|data|].count == data[|data| - 1].count
  {
    var copy := if |data| == 0 then Point(None, now) else data[|data| - 1].(created := now);
    data + [copy]
  }

  /** One entry of `times`: number, sample, extend to the clock reading `now`. */
  function BuildSeries(ts: seq<int>, now: int, sample: Sampler): (r: seq<Point>)
    ensures |r| == |sample(ToPoints(ts), SampleTarget)| + 1
    ensures r[..|r| - 1] == sample(ToPoints(ts), SampleTarget)
    ensures r[|r| - 1].created == now
  {
    ExtendToNow(sample(ToPoints(ts), SampleTarget), now)
  }

  /** The `times` object: one series per key of the fetched `stats` object.
      `clock(k)` is the value of Date.now() read while key `k` is processed. */
  function BuildTimes(stats: map<string, seq<int>>, clock: string -> int, sample: Sampler)
    : (times: map<string, seq<Point>>)
    ensures times.Keys == stats.Keys
    ensures forall k :: k in times ==> times[k] == BuildSeries(stats[k], clock(k), sample)
    ensures forall k :: k in times ==> |times[k]| > 0 && times[k][|times[k]| - 1].created == clock(k)
  {
    map k | k in stats :: BuildSeries(stats[k], clock(k), sample)
  }

  /** The sampler's evident role: it only keeps points it was given. */
  ghost predicate KeepsOnlyInputPoints(sample: Sampler, points: seq<Point>)
  {
    forall p :: p in sample(points, SampleTarget) ==> p in points
  }

  /** The sampler's evident role: the last input point survives sampling. */
  ghost predicate KeepsLastPoint(sample: Sampler, points: seq<Point>)
  {
    var s := sample(points, SampleTarget);
    |points| > 0 ==> |s| > 0 && s[|s| - 1] == points[|points| - 1]
  }

  /** An empty timestamp array yields the single count-less point at `now`,
      provided the sampler maps no points to no points. */
  lemma EmptyTimestampsGiveOnlyNow(now: int, sample: Sampler)
    requires sample([], SampleTarget) == []
    ensures BuildSeries([], now, sample) == [Point(None, now)]
  {
    assert ToPoints([]) == [];
  }

  /** Every point before the trailing one is the k-th original timestamp
      carrying the count k, whenever the sampler only keeps input points. */
  lemma SampledPointsKeepTheirPosition(ts: seq<int>, now: int, sample: Sampler)
    requires KeepsOnlyInputPoints(sample, ToPoints(ts))
    ensures var r := BuildSeries(ts, now, sample);
      forall j :: 0 <= j < |r| - 1 ==>
        r[j].count.Some? && 1 <= r[j].count.value <= |ts| && r[j].created == ts[r[j].count.value - 1]
  {
    var pts := ToPoints(ts);
    var r := BuildSeries(ts, now, sample);
    forall j | 0 <= j < |r| - 1
      ensures r[j].count.Some? && 1 <= r[j].count.value <= |ts| && r[j].created == ts[r[j].count.value - 1]
    {
      assert r[j] == r[..|r| - 1][j];
      assert r[j] in sample(pts, SampleTarget);
      var i :| 0 <= i < |pts| && pts[i] == r[j];
    }
  }

  /** The trailing point carries the total number of timestamps whenever the
      sampler keeps the last point, and the clock reading as its time. */
  lemma TrailingPointHoldsTotal(ts: seq<int>, now: int, sample: Sampler)
    requires |ts| > 0
    requires KeepsLastPoint(sample, ToPoints(ts))
    ensures var r := BuildSeries(ts, now, sample);
      r[|r| - 1] == Point(Some(|ts|), now)
  {
    var s := sample(ToPoints(ts), SampleTarget);
    assert s[|s| - 1] == ToPoints(ts)[|ts| - 1];
  }
}
